=== FILE: README.md ===
# CEA curve-fit reader and ideal-gas micro thermodynamics

This project models two pieces of the Antioch chemistry library and proves
properties of them.

**The CEA curve-fit reader.** `read_cea_mixture_data_ascii` reads species
thermodynamic curve fits from a whitespace-separated text in CEA layout:

- It skips the leading block of `#` comment lines once.
- It then reads records while the stream is good. A record is a species name,
  an interval count `n_int`, a formation enthalpy and `10 * n_int` polynomial
  coefficients.
- A record is kept only if the stream is still good after its last
  coefficient.
- A kept record of an active species is passed to `add_curve_fit`, with its
  name and coefficients.
- After the loop the table must be fully populated, or the read fails.

`read_cea_mixture_data_ascii_default` runs the same reader over the dataset
embedded in the library.

**The micro thermodynamics.** `IdealGasMicroThermo` splits a species' specific
heat at constant volume into three parts, layered over any macro model that
gives the total:

- a translational-rotational part;
- a vibrational part: what the macro total leaves over, or zero for a species
  with fewer than two translational-rotational degrees of freedom;
- an electronic part, which is always zero.

Modules, following the source:

- `Wrappers`: `Option` and `Result`.
- `CeaInput`: the input text as lines of words, each word with the number it
  reads as (if any); skipping the comment block; the word stream the record
  loop sees, and when that stream stops being good.
- `CeaParsing`: the record reader as pure functions. It covers one record, the
  loop, the active-species filter and the completeness check.
- `CeaLayout`: the reader against the record layout. The reader inverts the
  layout, truncated and final records are dropped, and the formation enthalpy
  is never passed on.
- `CeaReader`: the same reader as a method, with the loops of the source and
  an explicit stream state (position, good bit). It is proved equal to the
  functional reader.
- `CeaDefaultData`: an excerpt of the embedded dataset and what the default
  reader makes of it.
- `IdealGasMicroThermo`: the specific-heat split.

The stream is modelled as words, not characters. The one `std::istream`
behaviour kept is how it reaches end of input. Extracting the very last word of
the text, with no whitespace after it, sets end-of-file, so the stream is no
longer good. That is why a `Source` records whether the text ends in
whitespace. A final record with nothing after it is therefore dropped
(`CeaLayout.FinalRecordNeedsTrailingSpace`). The embedded dataset ends with a
newline, so its last record is kept.

## Model

| member | source | states |
|---|---|---|
| CeaInput.SkipCommentLines | src/parsing/include/antioch/cea_mixture_ascii_parsing.h:61 | the lines left are a suffix of the input; every line dropped is a `#` comment line; the first line left is not one |
| CeaInput.OpenStreamSkipsCommentBlock | src/parsing/include/antioch/cea_mixture_ascii_parsing.h:60-70 | the loop reads every word after the longest run of `#` lines at the head of the text: the lines skipped are all comments, and the first line not skipped is not one |
| CeaInput.GoodAfter | src/parsing/include/antioch/cea_mixture_ascii_parsing.h:69-88 | after an extraction the stream is bad exactly when it took the last word of a text that does not end in whitespace |
| CeaInput.CountOf | src/parsing/include/antioch/cea_mixture_ascii_parsing.h:73 | the interval count extracted is the word's value, a whole number within the 32-bit unsigned range |
| CeaInput.CommentLinesSkippedOnlyOnce | src/parsing/include/antioch/cea_mixture_ascii_parsing.h:61-74 | after the leading comment block, every later line is read as record words, `#` lines included |
| CeaParsing.Values | src/parsing/include/antioch/cea_mixture_ascii_parsing.h:79-83 | a run of words extracts as numbers exactly when every word is numeric; the numbers are then the words' values, in order and as many as the words |
| CeaParsing.ReadRecord | src/parsing/include/antioch/cea_mixture_ascii_parsing.h:72-88 | a kept record takes exactly `3 + 10 * n_int` words, laid out as name, count, enthalpy and coefficients; the stream is still good after them |
| CeaParsing.ReadRecords | src/parsing/include/antioch/cea_mixture_ascii_parsing.h:69-97 | the loop keeps no record at all exactly when the first record is not kept |
| CeaParsing.CurveFitCalls | src/parsing/include/antioch/cea_mixture_ascii_parsing.h:88-96 | no more calls than kept records, and every call names an active species |
| CeaParsing.CurveFitCallsMembers | src/parsing/include/antioch/cea_mixture_ascii_parsing.h:90-95 | a call is made if and only if it comes from a kept record of an active species, with that record's name and coefficients |
| CeaParsing.CallsAppend | src/parsing/include/antioch/cea_mixture_ascii_parsing.h:70-97 | the calls of two runs of records are the calls of the first run followed by those of the second |
| CeaParsing.Populated | src/parsing/include/antioch/cea_mixture_ascii_parsing.h:99-100 | the table is fully populated exactly when every active species received at least one call |
| CeaParsing.ReadCeaMixtureData | src/parsing/include/antioch/cea_mixture_ascii_parsing.h:57-107 | the read succeeds if and only if every active species has a kept record; on success the calls are exactly those of kept records of active species, and each call names an active species |
| CeaLayout.ReadRecordOfLayout | src/parsing/include/antioch/cea_mixture_ascii_parsing.h:72-88 | reading the text of a record, with the stream still good after it, gives back that record and the length of its text |
| CeaLayout.ReadFirstLaidOut | src/parsing/include/antioch/cea_mixture_ascii_parsing.h:70-88 | in a run of record texts, the first record is read back and the stream moves on to the next text |
| CeaLayout.ReadLaidOutRecords | src/parsing/include/antioch/cea_mixture_ascii_parsing.h:70-97 | the texts of a run of records, followed by more words or by whitespace, read back as exactly those records, then whatever the rest reads as |
| CeaLayout.ReadRecordsLaidOut | src/parsing/include/antioch/cea_mixture_ascii_parsing.h:69-97 | conversely, the records the loop keeps are those whose texts stand one after another at the head of the stream, and the words after them do not read as a record |
| CeaLayout.KeptRecordLaidOut | src/parsing/include/antioch/cea_mixture_ascii_parsing.h:69-88 | a turn that keeps a record puts that record's text in front of the texts of the records kept after it |
| CeaLayout.TruncatedRecordDropped | src/parsing/include/antioch/cea_mixture_ascii_parsing.h:85-96 | a record whose text is cut short at any word is not kept, and the loop ends without a call for it |
| CeaLayout.FinalRecordNeedsTrailingSpace | src/parsing/include/antioch/cea_mixture_ascii_parsing.h:85-88 | a run of record texts reads back every record when whitespace ends the text, and all but the last when it does not |
| CeaLayout.CallsIgnoreFormationEnthalpy | src/parsing/include/antioch/cea_mixture_ascii_parsing.h:94 | records that differ only in formation enthalpy make the same calls |
| CeaLayout.FormationEnthalpyNotForwarded | src/parsing/include/antioch/cea_mixture_ascii_parsing.h:74-94 | two texts that differ only in their formation enthalpies make the same calls |
| CeaReader.ExtractWord | src/parsing/include/antioch/cea_mixture_ascii_parsing.h:72 | extracting the name fails only when the stream is bad or no word is left, and then consumes nothing, keeps the previous name and leaves the stream bad; otherwise it takes the next word, and the stream stays good unless that was the last word with no whitespace after it |
| CeaReader.ExtractCount | src/parsing/include/antioch/cea_mixture_ascii_parsing.h:73 | the same for the interval count, which also fails on a word that is not a whole number in the 32-bit unsigned range; a count extracted is the word's value and within that range |
| CeaReader.ExtractReal | src/parsing/include/antioch/cea_mixture_ascii_parsing.h:74-81 | the same for the formation enthalpy and each coefficient, which also fails on a word that is not a number; a number extracted is the word's value |
| CeaReader.ReadOneRecord | src/parsing/include/antioch/cea_mixture_ascii_parsing.h:72-83 | one loop turn leaves the stream good exactly when the functional reader keeps a record there; it then moves past `3 + 10 * n_int` words, and the name and the freshly cleared coefficients are that record's |
| CeaReader.CoefficientFailureDropsRecord | src/parsing/include/antioch/cea_mixture_ascii_parsing.h:79-88 | if extracting any coefficient fails or reaches the end of the input, the record is not kept |
| CeaReader.CompleteRecordKept | src/parsing/include/antioch/cea_mixture_ascii_parsing.h:76-88 | a record whose every word extracted with the stream still good is kept, with the coefficients extracted |
| CeaReader.KeptTurnCalls | src/parsing/include/antioch/cea_mixture_ascii_parsing.h:88-96 | a turn that keeps a record contributes its call when it is active, and the rest of the stream contributes the rest |
| CeaReader.DroppedTurnCalls | src/parsing/include/antioch/cea_mixture_ascii_parsing.h:85-97 | a turn that keeps nothing ends the calls |
| CeaReader.ReadCeaMixtureDataAscii | src/parsing/include/antioch/cea_mixture_ascii_parsing.h:57-107 | the looping reader gives the same result as the functional reader, and on success calls only active species |
| CeaDefaultData.RecordOf | src/parsing/include/antioch/cea_mixture_ascii_parsing.h:71-83 | the words of a species text are laid out as the record it stands for: name, interval count, enthalpy, then ten coefficients per interval, so the reader gives that record back |
| CeaDefaultData.ReadCeaMixtureDataDefault | src/parsing/include/antioch/cea_mixture_ascii_parsing.h:110-593 | the default read succeeds exactly when every active species has a kept record in the embedded dataset, and on success calls only active species |
| CeaDefaultData.ArRecord | src/parsing/include/antioch/cea_mixture_ascii_parsing.h:149-156 | the argon text is a species text named `Ar` |
| CeaDefaultData.ArCoefficients | src/parsing/include/antioch/cea_mixture_ascii_parsing.h:149-151 | argon has three intervals and 30 coefficients; in the first interval a2 is 2.5 and a7 is 0 |
| CeaDefaultData.N2Record | src/parsing/include/antioch/cea_mixture_ascii_parsing.h:437-444 | the nitrogen text is a species text named `N2` |
| CeaDefaultData.O2Record | src/parsing/include/antioch/cea_mixture_ascii_parsing.h:541-548 | the oxygen text is a species text named `O2` |
| CeaDefaultData.ElectronRecord | src/parsing/include/antioch/cea_mixture_ascii_parsing.h:579-585 | the electron text, last in the dataset, is a species text named `e` |
| CeaDefaultData.HeaderIsComments | src/parsing/include/antioch/cea_mixture_ascii_parsing.h:116-147 | every line of the dataset's comment block is a `#` line |
| CeaDefaultData.ReadFourSpecies | src/parsing/include/antioch/cea_mixture_ascii_parsing.h:110-593 | a comment block, a blank line and four species texts read as the four records, in order |
| CeaDefaultData.DefaultRecords | src/parsing/include/antioch/cea_mixture_ascii_parsing.h:110-593 | the embedded excerpt reads as the records of argon, nitrogen, oxygen and the electron, in dataset order |
| CeaDefaultData.ThreeOfFourActive | src/parsing/include/antioch/cea_mixture_ascii_parsing.h:88-96 | of four records whose first three are active, exactly those three are called, in order |
| CeaDefaultData.ReadThreeOfFour | src/parsing/include/antioch/cea_mixture_ascii_parsing.h:88-106 | a text read as four records, three of them active and covering the active set, succeeds with those three calls |
| CeaDefaultData.ReadFourTextsThreeActive | src/parsing/include/antioch/cea_mixture_ascii_parsing.h:88-106 | four species texts, the first three active: the read succeeds with the calls of those three records |
| CeaDefaultData.ReadFourTextsThreeNames | src/parsing/include/antioch/cea_mixture_ascii_parsing.h:88-106 | the same read makes three calls, named after the first three texts |
| CeaDefaultData.ReadFourTextsFirstCall | src/parsing/include/antioch/cea_mixture_ascii_parsing.h:88-106 | the same read passes the first record's coefficients in its first call |
| CeaDefaultData.ReadFourTextsMissing | src/parsing/include/antioch/cea_mixture_ascii_parsing.h:99-106 | an active species that none of the four texts names makes the read fail |
| CeaDefaultData.DefaultReadArN2O2 | src/parsing/include/antioch/cea_mixture_ascii_parsing.h:110-593 | with Ar, N2 and O2 active, the default read succeeds with three calls, Ar, N2, O2, in that order; the electron is read but not added |
| CeaDefaultData.DefaultArgonCurveFit | src/parsing/include/antioch/cea_mixture_ascii_parsing.h:149-151 | the default read passes argon 30 coefficients, with a2 = 2.5 and a7 = 0 in the first interval |
| CeaDefaultData.DefaultReadMissingSpeciesFails | src/parsing/include/antioch/cea_mixture_ascii_parsing.h:99-106 | with an active species the dataset lacks (Kr), the default read fails as not fully populated |
| IdealGasMicroThermo.CvVib | src/thermo/include/antioch/ideal_gas_micro_thermo.h:61-65 | zero for a species with fewer than two translational-rotational degrees of freedom; otherwise the translational-rotational part plus it gives the macro total |
| IdealGasMicroThermo.CvVibOverR | src/thermo/include/antioch/ideal_gas_micro_thermo.h:67-72 | the same rule on the quantities divided by the gas constant |
| IdealGasMicroThermo.CvEl | src/thermo/include/antioch/ideal_gas_micro_thermo.h:74-81 | zero for every species and temperature |
| IdealGasMicroThermo.SplitAddsUp | src/thermo/include/antioch/ideal_gas_micro_thermo.h:61-81 | for a species with vibration, the translational-rotational, vibrational and electronic parts add up to the macro total |
| IdealGasMicroThermo.NoVibrationAtAnyTemperature | src/thermo/include/antioch/ideal_gas_micro_thermo.h:63-72 | below two degrees of freedom both vibrational quantities are zero, whatever the temperature and the macro model |
| IdealGasMicroThermo.VibrationScalesWithGasConstant | src/thermo/include/antioch/ideal_gas_micro_thermo.h:63-72 | both vibrational quantities take the same branch: when the macro total and the translational-rotational part are `rs` times their normalised values, so is the vibrational part |

## Left out

- `std::istream` tokenisation and string-to-number conversion: the input is already split into lines of words, each word carrying the number it reads as (if any). Extractions take whole words.
- CeaInput.ReadsAsCount: a count word whose value is a whole number from 0 to 4294967295 is read in full as that count, even when it is written `3.0` or `3e0`; any other word is a failed extraction. The library reads only the leading digits of such a word, and the enthalpy extraction starts mid-word. For `3.0` it reads `.0` as the enthalpy, so the later words of the record shift by one. For `3e0` or `3.` it finds no number, fails, and the record is dropped. In either case the model reads the whole word as the count and keeps the record; this partial read is not modelled. The same holds for a coefficient word that a number extraction would read only in part (`1.0x`).
- CeaReader.ExtractCount: in the model a record whose `10 * n_int` coefficients are not all in the text is dropped at once. In the library the coefficient loop runs `10 * n_int` times whatever the text holds, calling `push_back` on every turn. For any count whose `10 * n_int` values do not fit in memory it throws `std::bad_alloc` instead, and that exception path is not modelled. Such counts include any in-range count read in full, up to 4294967295. They also include a count word above 4294967295, which the library saturates to 4294967295 and flags as failed, and a negative one, which it wraps to a value near 4294967295. The model treats both of those words as failed extractions: it keeps the previous count, drops the record and ends the loop.
- An extraction from a stream that is already bad leaves its target as it was, in the library as in the model. When a number does not parse on a good stream (a count or coefficient word that is not a number), the library stores 0 where the model keeps the previous value. Either way the record is dropped. The only later use of that value is as the bound of a coefficient loop whose extractions all fail.
- The uninitialised interval count on the first turn. `n_int` is declared without a value. If the text after the comment block holds only whitespace, the stream is still good when the loop starts. `in >> name` then fails, `in >> n_int` reads nothing, and the coefficient loop runs to an indeterminate bound, which is undefined behaviour in the library. The model starts the count at 0. Such a text reads as no records, so the read fails as not fully populated unless no species is active.
- `skip_comment_lines` (input_utils.h is not part of this model): modelled as dropping the leading lines whose first character is `#`. Its line-length limit is not modelled.
- `add_curve_fit` and `check` (cea_mixture.h is not part of this model): the output is the sequence of `add_curve_fit` calls, and `check` is "every active species received a call". The active-species map of `ChemicalMixture` is a set of names.
- The `std::cerr` message and `antioch_error()`: modelled as the error result `TableNotFullyPopulated`.
- The embedded dataset apart from the excerpt. The excerpt keeps the head and tail of the comment block, the blank line after it, and the records of Ar, N2, O2 and e, with their words and line layout. The comment lines and the records between them are left out.
- CeaDefaultData.ReadCeaMixtureDataDefault: because only the excerpt is carried, the model's default read agrees with the library's only for active sets within {Ar, N2, O2, e}. For an active species that is in the full dataset but not in the excerpt (`CO2`, say), the model's default read returns `Err(TableNotFullyPopulated)`, whereas the library's succeeds.
- The CEA polynomial formulas for Cp/R, H/RT and S/R: they appear only as comment text in the dataset.
- Floating point: coefficients, enthalpies and specific heats are real numbers, and subtraction is exact.
- The macro thermodynamic model, `cv_tr` and `cv_tr_over_R` of the base class, and the species catalog: these are parameters (functions over reals, and the degree-of-freedom count per species).
- `TempCache`, the `StateType` and vectorised `zero_clone` generics: temperatures are single reals, and the typed zero is `0.0`.
- The base-class plumbing and `antioch_deprecated()`. The micro layer only reads the macro model and holds no mutable state. It is modelled by pure functions over an immutable value, so evaluating it changes nothing.
- Species indices out of range: the source indexes the species vector without a check, so the model requires the index to be in range.

=== FILE: cea_default_data.dfy ===
/** The default reader: the dataset embedded in the library, fed to the same
    record reader. Only an excerpt of the dataset is carried here: the head
    and tail of its comment block and the records of argon, nitrogen, oxygen
    and the electron, the last record of the dataset. The words and line
    layout of these records are those of the embedded text. */
module CeaDefaultData {
  import opened Wrappers
  import opened CeaInput
  import opened CeaParsing
  import opened CeaLayout

  /** A word that does not read as a number. */
  function Word(text: string): Token
  {
    Token(text, None)
  }

  /** A word that reads as the number `v`. */
  function Num(text: string, v: real): Token
  {
    Token(text, Some(v))
  }

  /** The comment block at the head of the dataset (first two and last line). */
  const HeaderText: seq<Line> := [
    Line(false, [Word("#" + "-----------------------------------------------------------------------------")]),
    Line(false, [Word("#"), Word("Cp,"), Word("H,"), Word("and"), Word("S"), Word("curve"), Word("fit"), Word("parameters"), Word("from"), Word("CEA"), Word("program"), Word("(1994)")]),
    Line(false, [Word("#" + "-------------------------------------------------------------------------------")])
  ]

  /** The argon record: three intervals, formation enthalpy 0. */
  const ArText: seq<Line> := [
    Line(false, [Word("Ar"), Num("3", 3.0), Num("0.000", 0.000)]),
    Line(true, [Num("0.00000000e+00", 0.00000000e00), Num("0.00000000e+00", 0.00000000e00), Num("2.50000000e+00", 2.50000000e00), Num("0.00000000e+00", 0.00000000e00), Num("0.00000000e+00", 0.00000000e00)]),
    Line(true, [Num("0.00000000e+00", 0.00000000e00), Num("0.00000000e+00", 0.00000000e00), Num("0.00000000e+00", 0.00000000e00), Num("-7.45375000e+02", -7.45375000e02), Num("4.37967491e+00", 4.37967491e00)]),
    Line(true, [Num("2.01053848e+01", 2.01053848e01), Num("-5.99266107e-02", -5.99266107e-02), Num("2.50006940e+00", 2.50006940e00), Num("-3.99214116e-08", -3.99214116e-08), Num("1.20527214e-11", 1.20527214e-11)]),
    Line(true, [Num("-1.81901558e-15", -1.81901558e-15), Num("1.07857664e-19", 1.07857664e-19), Num("0.00000000e+00", 0.00000000e00), Num("-7.44993961e+02", -7.44993961e02), Num("4.37918011e+00", 4.37918011e00)]),
    Line(true, [Num("-9.95126508e+08", -9.95126508e08), Num("6.45888726e+05", 6.45888726e05), Num("-1.67589470e+02", -1.67589470e02), Num("2.31993336e-02", 2.31993336e-02), Num("-1.72108091e-06", -1.72108091e-06)]),
    Line(true, [Num("6.53193846e-11", 6.53193846e-11), Num("-9.74014773e-16", -9.74014773e-16), Num("0.00000000e+00", 0.00000000e00), Num("-5.07830034e+06", -5.07830034e06), Num("1.46529848e+03", 1.46529848e03)]),
    Line(true, [])
  ]

  /** The nitrogen record. */
  const N2Text: seq<Line> := [
    Line(false, [Word("N2"), Num("3", 3.0), Num("0.000", 0.000)]),
    Line(true, [Num("2.21037122e+04", 2.21037122e04), Num("-3.81846145e+02", -3.81846145e02), Num("6.08273815e+00", 6.08273815e00), Num("-8.53091381e-03", -8.53091381e-03), Num("1.38464610e-05", 1.38464610e-05)]),
    Line(true, [Num("-9.62579293e-09", -9.62579293e-09), Num("2.51970560e-12", 2.51970560e-12), Num("0.00000000e+00", 0.00000000e00), Num("7.10845911e+02", 7.10845911e02), Num("-1.07600320e+01", -1.07600320e01)]),
    Line(true, [Num("5.87709908e+05", 5.87709908e05), Num("-2.23924255e+03", -2.23924255e03), Num("6.06694267e+00", 6.06694267e00), Num("-6.13965296e-04", -6.13965296e-04), Num("1.49179819e-07", 1.49179819e-07)]),
    Line(true, [Num("-1.92309442e-11", -1.92309442e-11), Num("1.06194871e-15", 1.06194871e-15), Num("0.00000000e+00", 0.00000000e00), Num("1.28320618e+04", 1.28320618e04), Num("-1.58663484e+01", -1.58663484e01)]),
    Line(true, [Num("8.30971200e+08", 8.30971200e08), Num("-6.42048187e+05", -6.42048187e05), Num("2.02020507e+02", 2.02020507e02), Num("-3.06501961e-02", -3.06501961e-02), Num("2.48685558e-06", 2.48685558e-06)]),
    Line(true, [Num("-9.70579208e-11", -9.70579208e-11), Num("1.43751673e-15", 1.43751673e-15), Num("0.00000000e+00", 0.00000000e00), Num("4.93850663e+06", 4.93850663e06), Num("-1.67204791e+03", -1.67204791e03)]),
    Line(true, [])
  ]

  /** The oxygen record. */
  const O2Text: seq<Line> := [
    Line(false, [Word("O2"), Num("3", 3.0), Num("0.000", 0.000)]),
    Line(true, [Num("-3.42556269e+04", -3.42556269e04), Num("4.84699986e+02", 4.84699986e02), Num("1.11901159e+00", 1.11901159e00), Num("4.29388743e-03", 4.29388743e-03), Num("-6.83627313e-07", -6.83627313e-07)]),
    Line(true, [Num("-2.02337478e-09", -2.02337478e-09), Num("1.03904064e-12", 1.03904064e-12), Num("0.00000000e+00", 0.00000000e00), Num("-3.39145434e+03", -3.39145434e03), Num("1.84969912e+01", 1.84969912e01)]),
    Line(true, [Num("-1.03793994e+06", -1.03793994e06), Num("2.34483275e+03", 2.34483275e03), Num("1.81972949e+00", 1.81972949e00), Num("1.26784887e-03", 1.26784887e-03), Num("-2.18807142e-07", -2.18807142e-07)]),
    Line(true, [Num("2.05372411e-11", 2.05372411e-11), Num("-8.19349062e-16", -8.19349062e-16), Num("0.00000000e+00", 0.00000000e00), Num("-1.68901253e+04", -1.68901253e04), Num("1.73871835e+01", 1.73871835e01)]),
    Line(true, [Num("4.97515261e+08", 4.97515261e08), Num("-2.86602339e+05", -2.86602339e05), Num("6.69015464e+01", 6.69015464e01), Num("-6.16971869e-03", -6.16971869e-03), Num("3.01623757e-07", 3.01623757e-07)]),
    Line(true, [Num("-7.42087888e-12", -7.42087888e-12), Num("7.27744063e-17", 7.27744063e-17), Num("0.00000000e+00", 0.00000000e00), Num("2.29348755e+06", 2.29348755e06), Num("-5.53044968e+02", -5.53044968e02)]),
    Line(true, [])
  ]

  /** The electron record, last in the dataset; the text ends with a newline after it. */
  const ElectronText: seq<Line> := [
    Line(false, [Word("e"), Num("3", 3.0), Num("0.000", 0.000)]),
    Line(true, [Num("0.00000000e+00", 0.00000000e00), Num("0.00000000e+00", 0.00000000e00), Num("2.50000000e+00", 2.50000000e00), Num("0.00000000e+00", 0.00000000e00), Num("0.00000000e+00", 0.00000000e00)]),
    Line(true, [Num("0.00000000e+00", 0.00000000e00), Num("0.00000000e+00", 0.00000000e00), Num("0.00000000e+00", 0.00000000e00), Num("-7.45375000e+02", -7.45375000e02), Num("-1.17208127e+01", -1.17208127e01)]),
    Line(true, [Num("0.00000000e+00", 0.00000000e00), Num("0.00000000e+00", 0.00000000e00), Num("2.50000000e+00", 2.50000000e00), Num("0.00000000e+00", 0.00000000e00), Num("0.00000000e+00", 0.00000000e00)]),
    Line(true, [Num("0.00000000e+00", 0.00000000e00), Num("0.00000000e+00", 0.00000000e00), Num("0.00000000e+00", 0.00000000e00), Num("-7.45375000e+02", -7.45375000e02), Num("-1.17208127e+01", -1.17208127e01)]),
    Line(true, [Num("0.00000000e+00", 0.00000000e00), Num("0.00000000e+00", 0.00000000e00), Num("2.50000000e+00", 2.50000000e00), Num("0.00000000e+00", 0.00000000e00), Num("0.00000000e+00", 0.00000000e00)]),
    Line(true, [Num("0.00000000e+00", 0.00000000e00), Num("0.00000000e+00", 0.00000000e00), Num("0.00000000e+00", 0.00000000e00), Num("-7.45375000e+02", -7.45375000e02), Num("-1.17208127e+01", -1.17208127e01)])
  ]
  /** The blank line between the comment block and the first record. */
  const BlankLine: Line := Line(false, [])

  /** The embedded dataset; its text ends with a newline. */
  const DefaultText: Source :=
    Source(HeaderText + ([BlankLine] + ArText + N2Text + O2Text + ElectronText), true)

  /** The default reader: the embedded dataset through the same reader. */
  function ReadCeaMixtureDataDefault(active: set<string>): (r: Result<seq<CurveFitCall>, ReadError>)
    ensures r.Ok? <==> forall name :: name in active ==>
      exists rec :: rec in ReadRecords(OpenStream(DefaultText)) && rec.name == name
    ensures r.Ok? ==> forall c :: c in r.value ==> c.name in active
  {
    ReadCeaMixtureData(DefaultText, active)
  }

  /** Whether every word of a line reads as a number. */
  predicate NumericLine(l: Line)
  {
    forall k :: 0 <= k < |l.toks| ==> l.toks[k].value.Some?
  }

  /** Whether the lines are laid out as the text of one species: a name line
      of a word, an interval count and a number, followed by lines of numbers
      holding ten coefficients per interval. */
  predicate SpeciesText(lines: seq<Line>)
  {
    && |lines| > 0
    && |lines[0].toks| == 3
    && ReadsAsCount(lines[0].toks[1])
    && lines[0].toks[2].value.Some?
    && (forall k :: 1 <= k < |lines| ==> NumericLine(lines[k]))
    && |Tokens(lines)| == 3 + CoeffsPerInterval * CountOf(lines[0].toks[1])
  }

  /** Lines of numbers give words that all read as numbers. */
  lemma {:induction false} NumericTokens(lines: seq<Line>)
    requires forall k :: 0 <= k < |lines| ==> NumericLine(lines[k])
    ensures forall k :: 0 <= k < |Tokens(lines)| ==> Tokens(lines)[k].value.Some?
  {
    if lines != [] {
      assert forall k :: 0 <= k < |lines| - 1 ==> NumericLine(lines[1..][k]) by {
        forall k | 0 <= k < |lines| - 1 ensures NumericLine(lines[1..][k]) {
          assert lines[1..][k] == lines[k + 1];
        }
      }
      NumericTokens(lines[1..]);
      assert NumericLine(lines[0]);
    }
  }

  /** The record the text of one species stands for: its words are laid out
      as that record, so the reader gives it back. */
  function RecordOf(lines: seq<Line>): (rec: Record)
    requires SpeciesText(lines)
    ensures LaidOut(Tokens(lines), rec)
  {
    assert forall k :: 0 <= k < |lines[1..]| ==> NumericLine(lines[1..][k]) by {
      forall k | 0 <= k < |lines[1..]| ensures NumericLine(lines[1..][k]) {
        assert lines[1..][k] == lines[k + 1];
      }
    }
    NumericTokens(lines[1..]);
    var ts := Tokens(lines);
    assert ts == lines[0].toks + Tokens(lines[1..]);
    assert ts[3..] == Tokens(lines[1..]);
    var head := lines[0].toks;
    Record(head[0].text, CountOf(head[1]), head[2].value.value, Values(Tokens(lines[1..])).value)
  }

  /** Argon's text is the text of one species. */
  lemma ArRecord()
    ensures SpeciesText(ArText) && ArText[0].toks[0].text == "Ar"
  {
  }

  /** Argon's record has three intervals, with a2 = 2.5 and the reserved
      a7 = 0 in the first interval. */
  lemma ArCoefficients()
    requires SpeciesText(ArText)
    ensures RecordOf(ArText).nInt == 3 && |RecordOf(ArText).coeffs| == 30
    ensures RecordOf(ArText).coeffs[2] == 2.5 && RecordOf(ArText).coeffs[7] == 0.0
  {
    assert Tokens(ArText) == ArText[0].toks + Tokens(ArText[1..]);
    assert Tokens(ArText)[3 + 2].value == Some(2.5);
    assert Tokens(ArText)[3 + 7].value == Some(0.0);
  }

  lemma N2Record()
    ensures SpeciesText(N2Text) && N2Text[0].toks[0].text == "N2"
  {
  }

  lemma O2Record()
    ensures SpeciesText(O2Text) && O2Text[0].toks[0].text == "O2"
  {
  }

  lemma ElectronRecord()
    ensures SpeciesText(ElectronText) && ElectronText[0].toks[0].text == "e"
  {
  }

  lemma HeaderIsComments()
    ensures forall k :: 0 <= k < |HeaderText| ==> IsCommentLine(HeaderText[k])
  {
  }

  lemma ConcatFour(p: seq<Token>, q: seq<Token>, r: seq<Token>, t: seq<Token>)
    ensures Concat([p, q, r, t]) == p + q + r + t
  {
    ConcatCons(p, [q, r, t]);
    ConcatCons(q, [r, t]);
    ConcatCons(r, [t]);
    ConcatCons(t, []);
    assert [p] + [q, r, t] == [p, q, r, t];
    assert [q] + [r, t] == [q, r, t];
    assert [r] + [t] == [r, t];
    assert [t] + [] == [t];
  }

  /** The words after a blank line and four texts are those of the four texts
      in turn. */
  lemma BodyTokens(blank: Line, a: seq<Line>, b: seq<Line>, c: seq<Line>, d: seq<Line>)
    requires blank.toks == []
    ensures Tokens([blank] + a + b + c + d) == Concat([Tokens(a), Tokens(b), Tokens(c), Tokens(d)])
  {
    TokensAppend([blank] + a + b + c, d);
    TokensAppend([blank] + a + b, c);
    TokensAppend([blank] + a, b);
    TokensAppend([blank], a);
    assert Tokens([blank]) == [] by {
      assert [blank][1..] == [];
    }
    assert Tokens([blank]) + Tokens(a) == Tokens(a);
    ConcatFour(Tokens(a), Tokens(b), Tokens(c), Tokens(d));
  }

  /** A text made of a comment block, a blank line and four species texts
      reads as the four records those texts stand for. */
  lemma ReadFourSpecies(header: seq<Line>, a: seq<Line>, b: seq<Line>, c: seq<Line>, d: seq<Line>)
    requires forall k :: 0 <= k < |header| ==> IsCommentLine(header[k])
    requires SpeciesText(a) && SpeciesText(b) && SpeciesText(c) && SpeciesText(d)
    ensures ReadRecords(OpenStream(Source(header + ([BlankLine] + a + b + c + d), true)))
         == [RecordOf(a), RecordOf(b), RecordOf(c), RecordOf(d)]
  {
    var body := [BlankLine] + a + b + c + d;
    CommentLinesSkippedOnlyOnce(header, body, true);
    BodyTokens(BlankLine, a, b, c, d);
    var parts := [Tokens(a), Tokens(b), Tokens(c), Tokens(d)];
    var recs := [RecordOf(a), RecordOf(b), RecordOf(c), RecordOf(d)];
    assert AllLaidOut(parts, recs);
    ReadLaidOutRecords(parts, recs, [], true);
    assert Concat(parts) + [] == Concat(parts);
    assert ReadRecords(Stream([], true)) == [];
    assert recs + [] == recs;
  }

  /** The records of the excerpt, in dataset order. */
  lemma DefaultRecords()
    ensures SpeciesText(ArText) && SpeciesText(N2Text) && SpeciesText(O2Text) && SpeciesText(ElectronText)
    ensures ReadRecords(OpenStream(DefaultText))
         == [RecordOf(ArText), RecordOf(N2Text), RecordOf(O2Text), RecordOf(ElectronText)]
  {
    HeaderIsComments();
    ArRecord();
    N2Record();
    O2Record();
    ElectronRecord();
    ReadFourSpecies(HeaderText, ArText, N2Text, O2Text, ElectronText);
  }

  /** The calls made by four records of which the first three are active. */
  lemma ThreeOfFourActive(recs: seq<Record>, active: set<string>)
    requires |recs| == 4
    requires recs[0].name in active && recs[1].name in active && recs[2].name in active
    requires recs[3].name !in active
    ensures CurveFitCalls(recs, active) == [CallOf(recs[0]), CallOf(recs[1]), CallOf(recs[2])]
  {
    assert CurveFitCalls(recs[3..], active) == [] by {
      assert recs[3..][1..] == [];
    }
    assert CurveFitCalls(recs[2..], active) == [CallOf(recs[2])] by {
      assert recs[2..][1..] == recs[3..];
    }
    assert CurveFitCalls(recs[1..], active) == [CallOf(recs[1]), CallOf(recs[2])] by {
      assert recs[1..][1..] == recs[2..];
    }
  }

  /** A text that reads as four records, the first three of them active and
      covering every active species, is read successfully into the three
      calls of those records. */
  lemma ReadThreeOfFour(src: Source, recs: seq<Record>, active: set<string>)
    requires ReadRecords(OpenStream(src)) == recs && |recs| == 4
    requires recs[0].name in active && recs[1].name in active && recs[2].name in active
    requires recs[3].name !in active
    requires forall name :: name in active ==> name == recs[0].name || name == recs[1].name || name == recs[2].name
    ensures ReadCeaMixtureData(src, active) == Ok([CallOf(recs[0]), CallOf(recs[1]), CallOf(recs[2])])
  {
    ThreeOfFourActive(recs, active);
    var calls := [CallOf(recs[0]), CallOf(recs[1]), CallOf(recs[2])];
    assert Populated(calls, active) by {
      assert calls[0] in calls && calls[1] in calls && calls[2] in calls;
    }
  }

  /** A comment block, a blank line and four species texts, read with the
      species of the first three texts active: the read succeeds with one
      call per active species, in text order. */
  lemma ReadFourTextsThreeActive(header: seq<Line>, a: seq<Line>, b: seq<Line>, c: seq<Line>, d: seq<Line>,
                                 na: string, nb: string, nc: string)
    requires forall k :: 0 <= k < |header| ==> IsCommentLine(header[k])
    requires SpeciesText(a) && SpeciesText(b) && SpeciesText(c) && SpeciesText(d)
    requires a[0].toks[0].text == na && b[0].toks[0].text == nb && c[0].toks[0].text == nc
    requires d[0].toks[0].text != na && d[0].toks[0].text != nb && d[0].toks[0].text != nc
    ensures ReadCeaMixtureData(Source(header + ([BlankLine] + a + b + c + d), true), {na, nb, nc})
         == Ok([CallOf(RecordOf(a)), CallOf(RecordOf(b)), CallOf(RecordOf(c))])
  {
    ReadFourSpecies(header, a, b, c, d);
    var recs := [RecordOf(a), RecordOf(b), RecordOf(c), RecordOf(d)];
    ReadThreeOfFour(Source(header + ([BlankLine] + a + b + c + d), true), recs, {na, nb, nc});
  }

  /** The same read, by species name only. */
  lemma ReadFourTextsThreeNames(header: seq<Line>, a: seq<Line>, b: seq<Line>, c: seq<Line>, d: seq<Line>,
                                na: string, nb: string, nc: string)
    requires forall k :: 0 <= k < |header| ==> IsCommentLine(header[k])
    requires SpeciesText(a) && SpeciesText(b) && SpeciesText(c) && SpeciesText(d)
    requires a[0].toks[0].text == na && b[0].toks[0].text == nb && c[0].toks[0].text == nc
    requires d[0].toks[0].text != na && d[0].toks[0].text != nb && d[0].toks[0].text != nc
    ensures var r := ReadCeaMixtureData(Source(header + ([BlankLine] + a + b + c + d), true), {na, nb, nc});
      r.Ok? && |r.value| == 3 && r.value[0].name == na && r.value[1].name == nb && r.value[2].name == nc
  {
    ReadFourTextsThreeActive(header, a, b, c, d, na, nb, nc);
  }

  /** The same read, by the coefficients of its first call only. */
  lemma ReadFourTextsFirstCall(header: seq<Line>, a: seq<Line>, b: seq<Line>, c: seq<Line>, d: seq<Line>,
                               na: string, nb: string, nc: string)
    requires forall k :: 0 <= k < |header| ==> IsCommentLine(header[k])
    requires SpeciesText(a) && SpeciesText(b) && SpeciesText(c) && SpeciesText(d)
    requires a[0].toks[0].text == na && b[0].toks[0].text == nb && c[0].toks[0].text == nc
    requires d[0].toks[0].text != na && d[0].toks[0].text != nb && d[0].toks[0].text != nc
    ensures var r := ReadCeaMixtureData(Source(header + ([BlankLine] + a + b + c + d), true), {na, nb, nc});
      r.Ok? && |r.value| > 0 && r.value[0].coeffs == RecordOf(a).coeffs
  {
    ReadFourTextsThreeActive(header, a, b, c, d, na, nb, nc);
  }

  /** A comment block, a blank line and four species texts, read with a
      species active that none of the texts names: the read fails. */
  lemma ReadFourTextsMissing(header: seq<Line>, a: seq<Line>, b: seq<Line>, c: seq<Line>, d: seq<Line>,
                             present: string, missing: string)
    requires forall k :: 0 <= k < |header| ==> IsCommentLine(header[k])
    requires SpeciesText(a) && SpeciesText(b) && SpeciesText(c) && SpeciesText(d)
    requires missing != a[0].toks[0].text && missing != b[0].toks[0].text
    requires missing != c[0].toks[0].text && missing != d[0].toks[0].text
    ensures ReadCeaMixtureData(Source(header + ([BlankLine] + a + b + c + d), true), {present, missing})
         == Err(TableNotFullyPopulated)
  {
    ReadFourSpecies(header, a, b, c, d);
    var recs := [RecordOf(a), RecordOf(b), RecordOf(c), RecordOf(d)];
    assert forall rec :: rec in recs ==> rec.name != missing;
  }

  /** With argon, nitrogen and oxygen active, the default read succeeds and
      makes one call per species, in dataset order; the electron record is
      read but not added. */
  lemma DefaultReadArN2O2()
    ensures ReadCeaMixtureDataDefault({"Ar", "N2", "O2"}).Ok?
    ensures var calls := ReadCeaMixtureDataDefault({"Ar", "N2", "O2"}).value;
      |calls| == 3 && calls[0].name == "Ar" && calls[1].name == "N2" && calls[2].name == "O2"
  {
    HeaderIsComments();
    ArRecord();
    N2Record();
    O2Record();
    ElectronRecord();
    ReadFourTextsThreeNames(HeaderText, ArText, N2Text, O2Text, ElectronText, "Ar", "N2", "O2");
  }

  /** The curve fit the default read passes for argon: three intervals of ten
      coefficients; in the first interval a2 is 2.5 and the reserved a7 is 0. */
  lemma DefaultArgonCurveFit()
    ensures ReadCeaMixtureDataDefault({"Ar", "N2", "O2"}).Ok?
    ensures var calls := ReadCeaMixtureDataDefault({"Ar", "N2", "O2"}).value;
      |calls| > 0 && |calls[0].coeffs| == 30 && calls[0].coeffs[2] == 2.5 && calls[0].coeffs[7] == 0.0
  {
    HeaderIsComments();
    ArRecord();
    N2Record();
    O2Record();
    ElectronRecord();
    ReadFourTextsFirstCall(HeaderText, ArText, N2Text, O2Text, ElectronText, "Ar", "N2", "O2");
    ArCoefficients();
  }

  /** An active species with no record in the data leaves the table
      incomplete, and the default read fails. */
  lemma DefaultReadMissingSpeciesFails()
    ensures ReadCeaMixtureDataDefault({"Ar", "Kr"}) == Err(TableNotFullyPopulated)
  {
    HeaderIsComments();
    ArRecord();
    N2Record();
    O2Record();
    ElectronRecord();
    ReadFourTextsMissing(HeaderText, ArText, N2Text, O2Text, ElectronText, "Ar", "Kr");
  }
}

=== FILE: cea_input.dfy ===
/** The input side of the CEA ASCII curve-fit reader: the text as lines of
    whitespace-delimited words, the leading `#` comment block that is skipped
    once, and the word stream that the record loop extracts from.

    Converting a word to a number is not modelled: every word carries the
    number it denotes, if it denotes one in full. */
module CeaInput {
  import opened Wrappers

  /** A whitespace-delimited word, and the floating-point number it denotes
      when it reads as one (`None` for words such as species names). */
  datatype Token = Token(text: string, value: Option<real>)

  /** One line of the text: whether it starts with a blank character, and
      the words on it. */
  datatype Line = Line(indented: bool, toks: seq<Token>)

  /** The whole text: its lines, and whether it ends with a blank character
      (a final newline, say) after its last word. */
  datatype Source = Source(lines: seq<Line>, trailingSpace: bool)

  /** The words the record loop reads from, in order, and whether blank
      text follows the last of them. */
  datatype Stream = Stream(toks: seq<Token>, trailingSpace: bool)

  /** The largest value of the 32-bit `unsigned int` interval counter. */
  const UintMax: int := 0xFFFF_FFFF

  /** A line whose very first character is the comment character `#`. */
  predicate IsCommentLine(l: Line)
  {
    !l.indented && |l.toks| > 0 && |l.toks[0].text| > 0 && l.toks[0].text[0] == '#'
  }

  /** The lines left once the comment block at the head of the text is
      skipped: the longest prefix of comment lines is dropped and nothing
      else. */
  function SkipCommentLines(lines: seq<Line>): (rest: seq<Line>)
    ensures |rest| <= |lines| && rest == lines[|lines| - |rest|..]
    ensures forall k :: 0 <= k < |lines| - |rest| ==> IsCommentLine(lines[k])
    ensures rest == [] || !IsCommentLine(rest[0])
  {
    if |lines| > 0 && IsCommentLine(lines[0]) then SkipCommentLines(lines[1..]) else lines
  }

  /** The words of a sequence of lines, line after line. */
  function Tokens(lines: seq<Line>): seq<Token>
  {
    if lines == [] then [] else lines[0].toks + Tokens(lines[1..])
  }

  /** The stream the record loop sees: every word of the lines after the
      leading comment block. */
  function OpenStream(src: Source): (s: Stream)
    ensures s.trailingSpace == src.trailingSpace
  {
    Stream(Tokens(SkipCommentLines(src.lines)), src.trailingSpace)
  }

  /** The leading comment block is the longest run of comment lines at the
      head of the text, and the stream holds every word after it. */
  lemma OpenStreamSkipsCommentBlock(src: Source)
    ensures exists k ::
      && 0 <= k <= |src.lines|
      && (forall j :: 0 <= j < k ==> IsCommentLine(src.lines[j]))
      && (k == |src.lines| || !IsCommentLine(src.lines[k]))
      && OpenStream(src).toks == Tokens(src.lines[k..])
  {
    var rest := SkipCommentLines(src.lines);
    var k := |src.lines| - |rest|;
    assert rest == src.lines[k..];
    assert k == |src.lines| || !IsCommentLine(src.lines[k]) by {
      if k < |src.lines| {
        assert src.lines[k] == rest[0];
      }
    }
  }

  /** Whether the stream is still good once its first `e` words have been
      extracted: extracting the last word with nothing after it reaches the
      end of the input and clears the good state. The stream only goes bad
      there. */
  predicate GoodAfter(s: Stream, e: nat)
    requires e <= |s.toks|
    ensures !GoodAfter(s, e) <==> e == |s.toks| && !s.trailingSpace
  {
    e < |s.toks| || s.trailingSpace
  }

  /** The stream that remains once its first `n` words are consumed. */
  function Rest(s: Stream, n: nat): Stream
    requires n <= |s.toks|
  {
    Stream(s.toks[n..], s.trailingSpace)
  }

  /** Whether a word extracts into the `unsigned int` interval counter: it
      denotes a whole number in the 32-bit unsigned range. */
  predicate ReadsAsCount(t: Token)
  {
    t.value.Some? && 0.0 <= t.value.value && t.value.value.Floor as real == t.value.value
    && t.value.value.Floor <= UintMax
  }

  /** The interval count a word extracts to. */
  function CountOf(t: Token): (n: nat)
    requires ReadsAsCount(t)
    ensures n as real == t.value.value && n <= UintMax
  {
    t.value.value.Floor
  }

  lemma {:induction false} TokensAppend(a: seq<Line>, b: seq<Line>)
    ensures Tokens(a + b) == Tokens(a) + Tokens(b)
  {
    if a == [] {
      assert a + b == b;
    } else {
      assert (a + b)[1..] == a[1..] + b;
      TokensAppend(a[1..], b);
    }
  }

  /** The comment block is skipped once, before the first record: once a line
      that is not a comment has been met, every later line is read as record
      words, `#` lines included. */
  lemma {:induction false} CommentLinesSkippedOnlyOnce(pre: seq<Line>, body: seq<Line>, t: bool)
    requires forall k :: 0 <= k < |pre| ==> IsCommentLine(pre[k])
    requires |body| > 0 && !IsCommentLine(body[0])
    ensures OpenStream(Source(pre + body, t)).toks == Tokens(body)
  {
    if pre == [] {
      assert pre + body == body;
    } else {
      assert (pre + body)[1..] == pre[1..] + body;
      CommentLinesSkippedOnlyOnce(pre[1..], body, t);
    }
  }
}

=== FILE: cea_layout.dfy ===
/** Properties of the record reader against the record layout: reading the
    text of a run of records gives back exactly those records, a final record
    with nothing after it or a truncated one is dropped, and the formation
    enthalpy never reaches the table. */
module CeaLayout {
  import opened Wrappers
  import opened CeaInput
  import opened CeaParsing

  /** The words of several record texts, one after another. */
  function Concat(parts: seq<seq<Token>>): (ts: seq<Token>)
  {
    if parts == [] then [] else parts[0] + Concat(parts[1..])
  }

  lemma ConcatCons(p: seq<Token>, parts: seq<seq<Token>>)
    ensures Concat([p] + parts) == p + Concat(parts)
  {
    assert ([p] + parts)[1..] == parts;
  }

  /** Whether each part is the text of the matching record. */
  ghost predicate AllLaidOut(parts: seq<seq<Token>>, recs: seq<Record>)
  {
    |parts| == |recs| && forall k :: 0 <= k < |parts| ==> LaidOut(parts[k], recs[k])
  }

  /** Reading the text of a record, followed by anything that keeps the stream
      good, gives back that record and the length of its text: the reader
      inverts the layout. */
  lemma ReadRecordOfLayout(s: Stream, m: nat, rec: Record)
    requires m <= |s.toks| && LaidOut(s.toks[..m], rec) && GoodAfter(s, m)
    ensures ReadRecord(s) == Some(Framed(rec, m))
  {
    assert s.toks[3..m] == s.toks[..m][3..];
  }

  /** Reading the text of a run of records, followed by more words or by blank
      text, gives back those records and then whatever the rest reads as. */
  lemma {:induction false} ReadLaidOutRecords(parts: seq<seq<Token>>, recs: seq<Record>, rest: seq<Token>, t: bool)
    requires AllLaidOut(parts, recs)
    requires |rest| > 0 || t
    ensures ReadRecords(Stream(Concat(parts) + rest, t)) == recs + ReadRecords(Stream(rest, t))
  {
    if parts == [] {
      assert Concat(parts) + rest == rest;
      assert recs == [];
      assert recs + ReadRecords(Stream(rest, t)) == ReadRecords(Stream(rest, t));
    } else {
      var s := Stream(Concat(parts) + rest, t);
      ReadFirstLaidOut(parts, recs, rest, t);
      ReadRecordsStep(s);
      assert AllLaidOut(parts[1..], recs[1..]) by {
        forall k | 0 <= k < |parts| - 1 ensures LaidOut(parts[1..][k], recs[1..][k]) {
          assert LaidOut(parts[k + 1], recs[k + 1]);
        }
      }
      ReadLaidOutRecords(parts[1..], recs[1..], rest, t);
      var tail := ReadRecords(Stream(rest, t));
      ConsAppend(recs, tail);
    }
  }

  /** Whether the words of `s` are the texts of `recs`, one after another,
      followed by `rest`, which does not read as a record. */
  ghost predicate SplitAt(s: Stream, parts: seq<seq<Token>>, rest: seq<Token>, recs: seq<Record>)
  {
    && s.toks == Concat(parts) + rest
    && AllLaidOut(parts, recs)
    && ReadRecord(Stream(rest, s.trailingSpace)).None?
  }

  /** The converse: the records the loop keeps are those whose texts stand,
      one after another, at the head of the stream, and the words after them
      do not read as a record. */
  lemma {:induction false} ReadRecordsLaidOut(s: Stream)
    ensures exists parts, rest :: SplitAt(s, parts, rest, ReadRecords(s))
    decreases |s.toks|
  {
    var r := ReadRecord(s);
    if r.None? {
      var parts: seq<seq<Token>> := [];
      assert s.toks == Concat(parts) + s.toks;
      assert Stream(s.toks, s.trailingSpace) == s;
      assert SplitAt(s, parts, s.toks, ReadRecords(s));
    } else {
      var s' := Rest(s, r.value.len);
      ReadRecordsLaidOut(s');
      var parts', rest' :| SplitAt(s', parts', rest', ReadRecords(s'));
      KeptRecordLaidOut(s, parts', rest');
      assert SplitAt(s, [s.toks[..r.value.len]] + parts', rest', ReadRecords(s));
    }
  }

  /** A turn of the loop that keeps a record adds its text in front of the
      texts the rest of the stream reads as. */
  lemma KeptRecordLaidOut(s: Stream, parts': seq<seq<Token>>, rest': seq<Token>)
    requires ReadRecord(s).Some?
    requires Rest(s, ReadRecord(s).value.len).toks == Concat(parts') + rest'
    requires AllLaidOut(parts', ReadRecords(Rest(s, ReadRecord(s).value.len)))
    ensures var parts := [s.toks[..ReadRecord(s).value.len]] + parts';
      && s.toks == Concat(parts) + rest'
      && AllLaidOut(parts, ReadRecords(s))
  {
    var f := ReadRecord(s).value;
    var head := s.toks[..f.len];
    KeptRecordWords(s.toks, f.len, parts', rest');
    var tail := ReadRecords(Rest(s, f.len));
    assert ReadRecords(s) == [f.rec] + tail by {
      ReadRecordsStep(s);
    }
    LaidOutCons(head, f.rec, parts', tail);
  }

  lemma KeptRecordWords(ts: seq<Token>, m: nat, parts': seq<seq<Token>>, rest': seq<Token>)
    requires m <= |ts| && ts[m..] == Concat(parts') + rest'
    ensures ts == Concat([ts[..m]] + parts') + rest'
  {
    ConcatCons(ts[..m], parts');
    assert ts == ts[..m] + ts[m..];
  }

  lemma LaidOutCons(p: seq<Token>, rec: Record, parts: seq<seq<Token>>, recs: seq<Record>)
    requires LaidOut(p, rec) && AllLaidOut(parts, recs)
    ensures AllLaidOut([p] + parts, [rec] + recs)
  {
    forall k | 0 < k <= |parts| ensures LaidOut(([p] + parts)[k], ([rec] + recs)[k]) {
      assert ([p] + parts)[k] == parts[k - 1];
    }
  }

  lemma ReadFirstLaidOut(parts: seq<seq<Token>>, recs: seq<Record>, rest: seq<Token>, t: bool)
    requires AllLaidOut(parts, recs) && |parts| > 0
    requires |rest| > 0 || t
    ensures ReadRecord(Stream(Concat(parts) + rest, t)) == Some(Framed(recs[0], |parts[0]|))
    ensures Rest(Stream(Concat(parts) + rest, t), |parts[0]|) == Stream(Concat(parts[1..]) + rest, t)
  {
    var s := Stream(Concat(parts) + rest, t);
    var m := |parts[0]|;
    assert Concat(parts) + rest == parts[0] + (Concat(parts[1..]) + rest);
    assert s.toks[..m] == parts[0];
    assert |s.toks| == m + |Concat(parts[1..])| + |rest|;
    assert m < |s.toks| || t;
    ReadRecordOfLayout(s, m, recs[0]);
  }

  lemma ConsAppend<T>(a: seq<T>, b: seq<T>)
    requires |a| > 0
    ensures a + b == [a[0]] + (a[1..] + b)
  {
    assert a == [a[0]] + a[1..];
  }

  /** A record whose text is cut short is never kept. */
  lemma TruncatedRecordDropped(ts: seq<Token>, rec: Record, k: nat, t: bool)
    requires LaidOut(ts, rec) && k < |ts|
    ensures ReadRecords(Stream(ts[..k], t)) == []
  {
    if 3 <= k {
      assert ts[..k][1] == ts[1];
    }
  }

  /** A complete text read to its end: every record comes back when blank
      text follows the last word; without it, extracting the last coefficient
      reaches the end of the input and the final record is dropped. */
  lemma FinalRecordNeedsTrailingSpace(parts: seq<seq<Token>>, recs: seq<Record>)
    requires AllLaidOut(parts, recs) && |recs| > 0
    ensures ReadRecords(Stream(Concat(parts), true)) == recs
    ensures ReadRecords(Stream(Concat(parts), false)) == recs[..|recs| - 1]
  {
    ReadLaidOutRecords(parts, recs, [], true);
    assert Concat(parts) + [] == Concat(parts);
    assert recs + ReadRecords(Stream([], true)) == recs;
    var n := |parts| - 1;
    var last := parts[n];
    ConcatSplit(parts, n);
    assert Concat(parts[n + 1..]) == [];
    assert Concat(parts) == Concat(parts[..n]) + last;
    assert AllLaidOut(parts[..n], recs[..n]) by {
      forall k | 0 <= k < n ensures LaidOut(parts[..n][k], recs[..n][k]) {
        assert LaidOut(parts[k], recs[k]);
      }
    }
    assert LaidOut(last, recs[n]);
    ReadLaidOutRecords(parts[..n], recs[..n], last, false);
    var s := Stream(last, false);
    if ReadRecord(s).Some? {
      assert false;
    }
    assert ReadRecords(s) == [];
    assert recs[..n] + [] == recs[..n];
  }

  lemma {:induction false} ConcatSplit(parts: seq<seq<Token>>, n: nat)
    requires n < |parts|
    ensures Concat(parts) == Concat(parts[..n]) + parts[n] + Concat(parts[n + 1..])
  {
    if n == 0 {
      assert parts[..0] == [];
      assert parts[1..] == parts[n + 1..];
    } else {
      ConcatSplit(parts[1..], n - 1);
      assert parts[1..][..n - 1] == parts[1..n];
      assert parts[..n] == [parts[0]] + parts[1..n];
      assert parts[1..][n - 1] == parts[n];
      assert parts[1..][n..] == parts[n + 1..];
    }
  }

  /** Records that differ only in formation enthalpy make the same
      `add_curve_fit` calls. */
  lemma {:induction false} CallsIgnoreFormationEnthalpy(a: seq<Record>, b: seq<Record>, active: set<string>)
    requires |a| == |b|
    requires forall k :: 0 <= k < |a| ==> b[k] == a[k].(hForm := b[k].hForm)
    ensures CurveFitCalls(a, active) == CurveFitCalls(b, active)
  {
    if a != [] {
      CallsIgnoreFormationEnthalpy(a[1..], b[1..], active);
    }
  }

  /** The formation enthalpy is read, which keeps the stream in step, but it
      is never passed on: two texts that differ only there make the same
      calls. */
  lemma FormationEnthalpyNotForwarded(parts: seq<seq<Token>>, recs: seq<Record>,
                                      parts': seq<seq<Token>>, recs': seq<Record>,
                                      rest: seq<Token>, t: bool, active: set<string>)
    requires AllLaidOut(parts, recs) && AllLaidOut(parts', recs')
    requires |recs| == |recs'|
    requires forall k :: 0 <= k < |recs| ==> recs'[k] == recs[k].(hForm := recs'[k].hForm)
    requires |rest| > 0 || t
    ensures CurveFitCalls(ReadRecords(Stream(Concat(parts) + rest, t)), active)
         == CurveFitCalls(ReadRecords(Stream(Concat(parts') + rest, t)), active)
  {
    ReadLaidOutRecords(parts, recs, rest, t);
    ReadLaidOutRecords(parts', recs', rest, t);
    var tail := ReadRecords(Stream(rest, t));
    CallsAppend(recs, tail, active);
    CallsAppend(recs', tail, active);
    CallsIgnoreFormationEnthalpy(recs, recs', active);
  }
}

=== FILE: cea_parsing.dfy ===
/** The CEA curve-fit record reader as a function of its input.

    After the comment block, the text is a run of species records. A record
    is a species name, an interval count `n`, a formation enthalpy, and then
    ten coefficients a0..a9 for each of the `n` temperature intervals. A record
    is kept only when every one of its words extracted and the stream is still
    good afterwards; the first record that is not kept ends the loop. Kept
    records of active species become `add_curve_fit` calls, and the table must
    then be complete or the read fails. */
module CeaParsing {
  import opened Wrappers
  import opened CeaInput

  /** One species record as read: name, interval count, formation enthalpy
      at 298.15 K, and the coefficients of all intervals in input order. */
  datatype Record = Record(name: string, nInt: nat, hForm: real, coeffs: seq<real>)

  /** A record that was read, with the number of words it took. */
  datatype Framed = Framed(rec: Record, len: nat)

  /** One call of the mixture's `add_curve_fit`: the species name and its
      coefficient vector. */
  datatype CurveFitCall = CurveFitCall(name: string, coeffs: seq<real>)

  /** The fatal error raised when the table is not fully populated. */
  datatype ReadError = TableNotFullyPopulated

  /** The number of coefficients an interval contributes (a0..a9). */
  const CoeffsPerInterval: nat := 10

  /** Whether the words `ts` are exactly the text of record `rec`: its name,
      a count word for its interval count, its formation enthalpy, and its
      coefficients, ten per interval, in order. */
  predicate LaidOut(ts: seq<Token>, rec: Record)
  {
    && |ts| == 3 + CoeffsPerInterval * rec.nInt
    && ts[0].text == rec.name
    && ReadsAsCount(ts[1]) && CountOf(ts[1]) == rec.nInt
    && ts[2].value == Some(rec.hForm)
    && Values(ts[3..]) == Some(rec.coeffs)
  }

  /** The numbers a run of words extracts to, or `None` as soon as one of
      them does not read as a number. */
  function Values(ts: seq<Token>): (r: Option<seq<real>>)
    ensures r.Some? <==> forall k :: 0 <= k < |ts| ==> ts[k].value.Some?
    ensures r.Some? ==> |r.value| == |ts|
    ensures r.Some? ==> forall k :: 0 <= k < |ts| ==> r.value[k] == ts[k].value.value
  {
    if ts == [] then Some([])
    else
      match (ts[0].value, Values(ts[1..]))
      case (Some(v), Some(vs)) => Some([v] + vs)
      case _ => None
  }

  /** Reads one record from the head of the stream. The record is kept only
      when all its words extracted and the stream is still good after the
      last of them; otherwise the result is `None`. */
  function ReadRecord(s: Stream): (r: Option<Framed>)
    ensures r.Some? ==> r.value.len <= |s.toks| && GoodAfter(s, r.value.len)
    ensures r.Some? ==> r.value.len == 3 + CoeffsPerInterval * r.value.rec.nInt
    ensures r.Some? ==> LaidOut(s.toks[..r.value.len], r.value.rec)
  {
    if |s.toks| < 3 || !ReadsAsCount(s.toks[1]) || s.toks[2].value.None? then None
    else
      var n := CountOf(s.toks[1]);
      var e := 3 + CoeffsPerInterval * n;
      if e > |s.toks| || !GoodAfter(s, e) then None
      else
        match Values(s.toks[3..e])
        case None => None
        case Some(cs) => Some(Framed(Record(s.toks[0].text, n, s.toks[2].value.value, cs), e))
  }

  /** The records the loop keeps, in input order: it reads records until the
      first one that is not kept, and that one and everything after it are
      dropped. */
  function ReadRecords(s: Stream): (recs: seq<Record>)
    ensures recs == [] <==> ReadRecord(s).None?
    decreases |s.toks|
  {
    match ReadRecord(s)
    case None => []
    case Some(f) => [f.rec] + ReadRecords(Rest(s, f.len))
  }

  /** One turn of the loop: a kept record is followed by what the rest of
      the stream reads as. */
  lemma ReadRecordsStep(s: Stream)
    ensures ReadRecord(s).None? ==> ReadRecords(s) == []
    ensures ReadRecord(s).Some? ==>
      ReadRecords(s) == [ReadRecord(s).value.rec] + ReadRecords(Rest(s, ReadRecord(s).value.len))
  {
  }

  /** The `add_curve_fit` call a kept record of an active species makes; the
      formation enthalpy is read but not passed on. */
  function CallOf(rec: Record): CurveFitCall
  {
    CurveFitCall(rec.name, rec.coeffs)
  }

  /** The `add_curve_fit` calls the kept records make, in order: one per record
      whose name is an active species, and no other. */
  function CurveFitCalls(recs: seq<Record>, active: set<string>): (calls: seq<CurveFitCall>)
    ensures |calls| <= |recs|
    ensures forall k :: 0 <= k < |calls| ==> calls[k].name in active
  {
    if recs == [] then []
    else
      var tail := CurveFitCalls(recs[1..], active);
      if recs[0].name in active then [CallOf(recs[0])] + tail else tail
  }

  /** A call is made exactly for each kept record of an active species:
      nothing else is added, and no such record is missed. */
  lemma {:induction false} CurveFitCallsMembers(recs: seq<Record>, active: set<string>)
    ensures forall c :: c in CurveFitCalls(recs, active) <==>
      exists r :: r in recs && r.name in active && c == CallOf(r)
  {
    if recs != [] {
      CurveFitCallsMembers(recs[1..], active);
      assert forall r :: r in recs <==> r == recs[0] || r in recs[1..];
    }
  }

  /** The calls of two runs of records are the calls of the first run
      followed by those of the second. */
  lemma {:induction false} CallsAppend(a: seq<Record>, b: seq<Record>, active: set<string>)
    ensures CurveFitCalls(a + b, active) == CurveFitCalls(a, active) + CurveFitCalls(b, active)
  {
    if a == [] {
      assert a + b == b;
    } else {
      assert (a + b)[0] == a[0];
      assert (a + b)[1..] == a[1..] + b;
      CallsAppend(a[1..], b, active);
    }
  }

  /** The species that received at least one `add_curve_fit` call. */
  function Names(calls: seq<CurveFitCall>): set<string>
  {
    set c | c in calls :: c.name
  }

  /** The table check after the loop: every active species received a curve
      fit. */
  predicate Populated(calls: seq<CurveFitCall>, active: set<string>)
    ensures Populated(calls, active) <==>
      forall name :: name in active ==> exists c :: c in calls && c.name == name
  {
    active <= Names(calls)
  }

  /** The reader: skip the comment block, read the records, forward those of
      active species, and fail if the table is then incomplete. */
  function ReadCeaMixtureData(src: Source, active: set<string>): (r: Result<seq<CurveFitCall>, ReadError>)
    ensures r.Ok? <==> forall name :: name in active ==>
      exists rec :: rec in ReadRecords(OpenStream(src)) && rec.name == name
    ensures r.Ok? ==> forall c :: c in r.value ==> c.name in active
    ensures r.Ok? ==> forall c :: c in r.value <==>
      exists rec :: rec in ReadRecords(OpenStream(src)) && rec.name in active && c == CallOf(rec)
  {
    var recs := ReadRecords(OpenStream(src));
    var calls := CurveFitCalls(recs, active);
    CurveFitCallsMembers(recs, active);
    assert (forall name :: name in active ==> exists rec :: rec in recs && rec.name == name)
      ==> Populated(calls, active) by {
      forall name | name in active && (exists rec :: rec in recs && rec.name == name)
        ensures name in Names(calls)
      {
        var rec :| rec in recs && rec.name == name;
        assert CallOf(rec) in calls;
      }
    }
    if Populated(calls, active) then Ok(calls) else Err(TableNotFullyPopulated)
  }
}

=== FILE: cea_reader.dfy ===
/** The record reader as the loops that extract word after word from an
    input stream. The stream is a position and a good flag: once it is not
    good every extraction fails and leaves its target as it was, and the
    record being read is dropped. The method is proved to make exactly the
    calls the functional reader describes. */
module CeaReader {
  import opened Wrappers
  import opened CeaInput
  import opened CeaParsing

  /** The state of the input stream: the position of the next word, and
      whether the stream is good. */
  datatype IStream = IStream(pos: nat, good: bool)

  /** Extracts a word into a string; this only fails when no word is left.
      A failed extraction consumes nothing, leaves the target as it was and
      marks the stream bad; a stream once bad stays so. A successful one
      consumes the word, and leaves the stream good unless it reached the
      end of the input. */
  function ExtractWord(s: Stream, st: IStream, prev: string): (r: (string, IStream))
    requires st.pos <= |s.toks|
    ensures r.1.pos <= |s.toks|
    ensures !st.good ==> r == (prev, st)
    ensures r.1.pos == st.pos + 1 <==> st.good && st.pos < |s.toks|
    ensures r.1.pos == st.pos ==> r.0 == prev && !r.1.good
    ensures r.1.pos == st.pos + 1 ==> r.0 == s.toks[st.pos].text && (r.1.good <==> GoodAfter(s, r.1.pos))
  {
    if !st.good || st.pos >= |s.toks| then (prev, st.(good := false))
    else (s.toks[st.pos].text, IStream(st.pos + 1, GoodAfter(s, st.pos + 1)))
  }

  /** Extracts a word into a floating-point number, which fails as well on
      a word that does not read as a number. */
  function ExtractReal(s: Stream, st: IStream, prev: real): (r: (real, IStream))
    requires st.pos <= |s.toks|
    ensures r.1.pos <= |s.toks|
    ensures !st.good ==> r == (prev, st)
    ensures r.1.pos == st.pos + 1 <==> st.good && st.pos < |s.toks| && s.toks[st.pos].value.Some?
    ensures r.1.pos == st.pos ==> r.0 == prev && !r.1.good
    ensures r.1.pos == st.pos + 1 ==> s.toks[st.pos].value == Some(r.0) && (r.1.good <==> GoodAfter(s, r.1.pos))
  {
    if !st.good || st.pos >= |s.toks| || s.toks[st.pos].value.None? then (prev, st.(good := false))
    else (s.toks[st.pos].value.value, IStream(st.pos + 1, GoodAfter(s, st.pos + 1)))
  }

  /** Extracts a word into the `unsigned int` interval counter, which fails
      as well on a word that does not read as a count in its range. */
  function ExtractCount(s: Stream, st: IStream, prev: nat): (r: (nat, IStream))
    requires st.pos <= |s.toks|
    ensures r.1.pos <= |s.toks|
    ensures !st.good ==> r == (prev, st)
    ensures r.1.pos == st.pos + 1 <==> st.good && st.pos < |s.toks| && ReadsAsCount(s.toks[st.pos])
    ensures r.1.pos == st.pos ==> r.0 == prev && !r.1.good
    ensures r.1.pos == st.pos + 1 ==> r.0 <= UintMax && (r.1.good <==> GoodAfter(s, r.1.pos))
    ensures r.1.pos == st.pos + 1 ==> s.toks[st.pos].value == Some(r.0 as real)
  {
    if !st.good || st.pos >= |s.toks| || !ReadsAsCount(s.toks[st.pos]) then (prev, st.(good := false))
    else (CountOf(s.toks[st.pos]), IStream(st.pos + 1, GoodAfter(s, st.pos + 1)))
  }

  /** One turn of the record loop: extract the name, the interval count and
      the formation enthalpy, then clear the coefficient vector and extract
      ten coefficients per interval. The stream is still good afterwards
      exactly when the functional reader keeps a record there, and then the
      name and coefficients are that record's. */
  method ReadOneRecord(s: Stream, st0: IStream, name0: string, nInt0: nat, hForm0: real, val0: real)
    returns (st: IStream, name: string, nInt: nat, hForm: real, coeffs: seq<real>)
    requires st0.good && st0.pos <= |s.toks|
    ensures st.pos <= |s.toks|
    ensures st.good <==> ReadRecord(Rest(s, st0.pos)).Some?
    ensures st.good ==> st.pos == st0.pos + ReadRecord(Rest(s, st0.pos)).value.len >= st0.pos + 3
    ensures st.good ==> name == ReadRecord(Rest(s, st0.pos)).value.rec.name
    ensures st.good ==> coeffs == ReadRecord(Rest(s, st0.pos)).value.rec.coeffs
  {
    ghost var start := st0.pos;
    ghost var r := Rest(s, start);
    var nameRead := ExtractWord(s, st0, name0);
    name, st := nameRead.0, nameRead.1;
    var nIntRead := ExtractCount(s, st, nInt0);
    nInt, st := nIntRead.0, nIntRead.1;
    var hFormRead := ExtractReal(s, st, hForm0);
    hForm, st := hFormRead.0, hFormRead.1;
    assert st.good ==> st.pos == start + 3 && GoodAfter(s, st.pos);
    assert st.good ==> ReadsAsCount(r.toks[1]) && nInt == CountOf(r.toks[1]) && r.toks[2].value.Some?;
    assert st.good ==> name == r.toks[0].text;
    assert !st.good ==> ReadRecord(r).None?;
    coeffs := [];
    var val := val0;
    var interval := 0;
    while interval < nInt
      invariant st.pos <= |s.toks|
      invariant interval <= nInt
      invariant |coeffs| == CoeffsPerInterval * interval
      invariant st.good ==> st.pos == start + 3 + |coeffs| && GoodAfter(s, st.pos)
      invariant st.good ==> ReadsAsCount(r.toks[1]) && nInt == CountOf(r.toks[1]) && r.toks[2].value.Some?
      invariant st.good ==> name == r.toks[0].text
      invariant st.good ==> forall k :: 0 <= k < |coeffs| ==> r.toks[3 + k].value == Some(coeffs[k])
      invariant !st.good ==> ReadRecord(r).None?
    {
      var n := 0;
      while n < CoeffsPerInterval
        invariant st.pos <= |s.toks|
        invariant n <= CoeffsPerInterval
        invariant |coeffs| == CoeffsPerInterval * interval + n
        invariant st.good ==> st.pos == start + 3 + |coeffs| && GoodAfter(s, st.pos)
        invariant st.good ==> ReadsAsCount(r.toks[1]) && nInt == CountOf(r.toks[1]) && r.toks[2].value.Some?
        invariant st.good ==> name == r.toks[0].text
        invariant st.good ==> forall k :: 0 <= k < |coeffs| ==> r.toks[3 + k].value == Some(coeffs[k])
        invariant !st.good ==> ReadRecord(r).None?
      {
        ghost var before := st;
        var valRead := ExtractReal(s, st, val);
        val, st := valRead.0, valRead.1;
        if before.good && !st.good {
          CoefficientFailureDropsRecord(s, start, |coeffs|);
        }
        coeffs := coeffs + [val];
        n := n + 1;
      }
      interval := interval + 1;
    }
    if st.good {
      CompleteRecordKept(s, start, coeffs);
    }
  }

  /** When extracting coefficient `j` of a record whose header read well
      fails or reaches the end of the input, the record is not kept. */
  lemma CoefficientFailureDropsRecord(s: Stream, start: nat, j: nat)
    requires start + 3 + j <= |s.toks|
    requires ReadsAsCount(s.toks[start + 1]) && j < CoeffsPerInterval * CountOf(s.toks[start + 1])
    requires !ExtractReal(s, IStream(start + 3 + j, true), 0.0).1.good
    ensures ReadRecord(Rest(s, start)).None?
  {
    var r := Rest(s, start);
    var e := 3 + CoeffsPerInterval * CountOf(r.toks[1]);
    if e <= |r.toks| && GoodAfter(r, e) && r.toks[2].value.Some? {
      assert r.toks[3..e][j] == s.toks[start + 3 + j];
    }
  }

  /** A record whose every word extracted with the stream still good is
      kept, with the coefficients extracted. */
  lemma CompleteRecordKept(s: Stream, start: nat, coeffs: seq<real>)
    requires start + 3 <= |s.toks|
    requires ReadsAsCount(s.toks[start + 1]) && s.toks[start + 2].value.Some?
    requires |coeffs| == CoeffsPerInterval * CountOf(s.toks[start + 1])
    requires start + 3 + |coeffs| <= |s.toks| && GoodAfter(s, start + 3 + |coeffs|)
    requires forall k :: 0 <= k < |coeffs| ==> s.toks[start + 3 + k].value == Some(coeffs[k])
    ensures ReadRecord(Rest(s, start)).Some?
    ensures ReadRecord(Rest(s, start)).value.len == 3 + |coeffs|
    ensures ReadRecord(Rest(s, start)).value.rec.name == s.toks[start].text
    ensures ReadRecord(Rest(s, start)).value.rec.coeffs == coeffs
  {
    var r := Rest(s, start);
    var e := 3 + |coeffs|;
    var cs := r.toks[3..e];
    assert forall k :: 0 <= k < |cs| ==> cs[k] == s.toks[start + 3 + k];
    assert |cs| == |coeffs|;
    forall k | 0 <= k < |cs| ensures cs[k].value == Some(coeffs[k]) {
      assert cs[k] == s.toks[start + 3 + k];
    }
    assert GoodAfter(r, e);
    var vs := Values(cs);
    assert vs.Some?;
    assert vs.value == coeffs;
  }

  /** A turn of the record loop that keeps a record contributes that
      record's call if it is active, and the rest of the stream the rest. */
  lemma KeptTurnCalls(s: Stream, start: nat, next: nat, rec: Record, active: set<string>)
    requires start <= next <= |s.toks|
    requires ReadRecord(Rest(s, start)) == Some(Framed(rec, next - start))
    ensures CurveFitCalls(ReadRecords(Rest(s, start)), active)
         == (if rec.name in active then [CurveFitCall(rec.name, rec.coeffs)] else [])
            + CurveFitCalls(ReadRecords(Rest(s, next)), active)
  {
    var tail := ReadRecords(Rest(s, next));
    KeptTurnRecords(s, start, next, rec);
    CallsAppend([rec], tail, active);
    assert [rec][1..] == [];
    assert CurveFitCalls([rec], active) == if rec.name in active then [CallOf(rec)] else [];
  }

  lemma KeptTurnRecords(s: Stream, start: nat, next: nat, rec: Record)
    requires start <= next <= |s.toks|
    requires ReadRecord(Rest(s, start)) == Some(Framed(rec, next - start))
    ensures ReadRecords(Rest(s, start)) == [rec] + ReadRecords(Rest(s, next))
  {
    KeptRecord(Rest(s, start), next - start, rec);
    RestOfRest(s, start, next);
  }

  lemma KeptRecord(r: Stream, m: nat, rec: Record)
    requires ReadRecord(r) == Some(Framed(rec, m))
    ensures m <= |r.toks| && ReadRecords(r) == [rec] + ReadRecords(Rest(r, m))
  {
    ReadRecordsStep(r);
  }

  lemma RestOfRest(s: Stream, a: nat, b: nat)
    requires a <= b <= |s.toks|
    ensures Rest(Rest(s, a), b - a) == Rest(s, b)
  {
    assert s.toks[a..][b - a..] == s.toks[b..];
  }

  /** A turn of the record loop that keeps nothing ends the calls. */
  lemma DroppedTurnCalls(s: Stream, start: nat, active: set<string>)
    requires start <= |s.toks|
    requires ReadRecord(Rest(s, start)).None?
    ensures CurveFitCalls(ReadRecords(Rest(s, start)), active) == []
  {
    ReadRecordsStep(Rest(s, start));
  }

  lemma AppendRegroup<T>(a: seq<T>, b: seq<T>, c: seq<T>)
    ensures (a + b) + c == a + (b + c)
  {
  }

  /** The reader: skip the comment block, then loop while the stream is good,
      reading a record per turn and forwarding it when the stream is still
      good and the name is an active species; finally fail unless every active
      species received a curve fit. */
  method ReadCeaMixtureDataAscii(src: Source, active: set<string>)
    returns (r: Result<seq<CurveFitCall>, ReadError>)
    ensures r == ReadCeaMixtureData(src, active)
    ensures r.Ok? ==> forall c :: c in r.value ==> c.name in active
  {
    var s := OpenStream(src);
    var st := IStream(0, true);
    var name: string := "";
    var nInt: nat := 0;
    var hForm: real := 0.0;
    var coeffs: seq<real> := [];
    var calls: seq<CurveFitCall> := [];
    assert Rest(s, 0) == s;
    assert calls + CurveFitCalls(ReadRecords(s), active) == CurveFitCalls(ReadRecords(s), active);
    while st.good
      invariant st.pos <= |s.toks|
      invariant st.good ==> calls + CurveFitCalls(ReadRecords(Rest(s, st.pos)), active)
                            == CurveFitCalls(ReadRecords(s), active)
      invariant !st.good ==> calls == CurveFitCalls(ReadRecords(s), active)
      decreases if st.good then |s.toks| - st.pos + 1 else 0
    {
      ghost var start := st.pos;
      ghost var before := calls;
      st, name, nInt, hForm, coeffs := ReadOneRecord(s, st, name, nInt, hForm, 0.0);
      if st.good {
        ghost var f := ReadRecord(Rest(s, start)).value;
        KeptTurnCalls(s, start, st.pos, f.rec, active);
        if name in active {
          calls := calls + [CurveFitCall(name, coeffs)];
        }
        ghost var head := if name in active then [CurveFitCall(name, coeffs)] else [];
        ghost var tail := CurveFitCalls(ReadRecords(Rest(s, st.pos)), active);
        assert name == f.rec.name && coeffs == f.rec.coeffs;
        assert CurveFitCalls(ReadRecords(Rest(s, start)), active) == head + tail;
        assert before + (head + tail) == CurveFitCalls(ReadRecords(s), active);
        AppendRegroup(before, head, tail);
        assert calls == before + head;
        assert calls + tail == CurveFitCalls(ReadRecords(s), active);
      } else {
        DroppedTurnCalls(s, start, active);
        assert calls == before + [];
      }
    }
    if !Populated(calls, active) {
      return Err(TableNotFullyPopulated);
    }
    return Ok(calls);
  }
}

=== FILE: ideal_gas_micro_thermo.dfy ===
/** The ideal-gas micro thermodynamics: the split of a species' specific heat
    at constant volume into a translational-rotational part, a vibrational
    part and an electronic part, layered over any macro thermodynamics that
    gives the total. The macro model and the translational-rotational terms
    are parameters: only the split is modelled. Temperatures are plain reals
    (one value, not a vector of them). */
module IdealGasMicroThermo {

  /** What the micro layer reads from the macro model: the total specific
      heat of species `s` at temperature `T`, in J/kg-K and divided by the
      species gas constant. */
  datatype MacroThermo = MacroThermo(cv: (real, nat) -> real, cvOverR: (real, nat) -> real)

  /** What the micro layer reads from a species of the mixture: its count of
      translational-rotational degrees of freedom. */
  datatype ChemicalSpecies = ChemicalSpecies(nTrDofs: real)

  /** The micro layer: the macro model it wraps, the species of the mixture,
      and the translational-rotational specific heat of each species, in
      J/kg-K and divided by the species gas constant. */
  datatype MicroThermo = MicroThermo(
    ext: MacroThermo,
    species: seq<ChemicalSpecies>,
    cvTr: nat -> real,
    cvTrOverR: nat -> real)

  /** Below two translational-rotational degrees of freedom (the free
      electron) a species has no vibrational specific heat. */
  predicate HasVibration(m: MicroThermo, s: nat)
    requires s < |m.species|
  {
    !(m.species[s].nTrDofs < 2.0)
  }

  /** The vibrational specific heat of species `s`, in J/kg-K: zero for a
      species without vibration, and otherwise whatever of the macro total
      the translational-rotational part leaves over. */
  function CvVib(m: MicroThermo, s: nat, T: real): (r: real)
    requires s < |m.species|
    ensures !HasVibration(m, s) ==> r == 0.0
    ensures HasVibration(m, s) ==> m.cvTr(s) + r == m.ext.cv(T, s)
  {
    if m.species[s].nTrDofs < 2.0 then 0.0 else m.ext.cv(T, s) - m.cvTr(s)
  }

  /** The vibrational specific heat of species `s` divided by its gas
      constant, by the same rule on the normalised quantities. */
  function CvVibOverR(m: MicroThermo, s: nat, T: real): (r: real)
    requires s < |m.species|
    ensures !HasVibration(m, s) ==> r == 0.0
    ensures HasVibration(m, s) ==> m.cvTrOverR(s) + r == m.ext.cvOverR(T, s)
  {
    if m.species[s].nTrDofs < 2.0 then 0.0 else m.ext.cvOverR(T, s) - m.cvTrOverR(s)
  }

  /** The electronic specific heat of species `s`: no electronic state is
      populated, so there is none, at any temperature. */
  function CvEl(m: MicroThermo, s: nat, T: real): (r: real)
    ensures r == 0.0
  {
    0.0
  }

  /** For a species with vibration the three parts add up to the macro total
      at every temperature. */
  lemma SplitAddsUp(m: MicroThermo, s: nat, T: real)
    requires s < |m.species| && HasVibration(m, s)
    ensures m.cvTr(s) + CvVib(m, s, T) + CvEl(m, s, T) == m.ext.cv(T, s)
  {
  }

  /** For a species without vibration the vibrational part does not depend
      on the temperature, nor on the macro model. */
  lemma NoVibrationAtAnyTemperature(m: MicroThermo, m': MicroThermo, s: nat, T: real, T': real)
    requires s < |m.species| && !HasVibration(m, s)
    requires s < |m'.species| && m'.species[s] == m.species[s]
    ensures CvVib(m, s, T) == CvVib(m', s, T') == 0.0
    ensures CvVibOverR(m, s, T) == CvVibOverR(m', s, T') == 0.0
  {
  }

  /** The two vibrational quantities take the same branch: when the macro
      total and the translational-rotational part of species `s` are both
      `rs` times their normalised values, so is the vibrational part. */
  lemma VibrationScalesWithGasConstant(m: MicroThermo, s: nat, T: real, rs: real)
    requires s < |m.species|
    requires m.ext.cv(T, s) == rs * m.ext.cvOverR(T, s)
    requires m.cvTr(s) == rs * m.cvTrOverR(s)
    ensures CvVib(m, s, T) == rs * CvVibOverR(m, s, T)
  {
    if HasVibration(m, s) {
      assert rs * (m.ext.cvOverR(T, s) - m.cvTrOverR(s))
          == rs * m.ext.cvOverR(T, s) - rs * m.cvTrOverR(s);
    }
  }
}

=== FILE: wrappers.dfy ===
/** Optional values and results with an error case, shared by the reader modules. */
module Wrappers {

  /** A value that may be absent. */
  datatype Option<+T> = None | Some(value: T)

  /** The outcome of an operation that either succeeds with a value or fails
      with an error. */
  datatype Result<+T, +E> = Ok(value: T) | Err(error: E)
}
